=== FILE: README.md ===
# Sailing track analytics, modelled in Dafny

This project models the track analytics of a sailing log book. They are
single-pass folds over the ordered GPS fixes of one trip:

- **Track statistics** (`calculateStats`). The walk sums the length of every
  leg. It keeps a leg's speed as a sample only when the leg lasts 5 to 60
  seconds and its speed is 0.5 to 25 knots. It reports the 95th-percentile
  sample as the maximum speed and the sample mean as the average. The duration
  is the last timestamp minus the first, and the distance is in nautical miles.
- **Performance analysis** (`analyzePerformance`). Each leg's course is taken
  relative to the wind and the leg is classed as upwind, downwind or reach. A
  port/starboard state machine counts tacks and jibes and times each tack. The
  totals become average speeds, VMG, a tack-balance percentage and an ordered
  list of insights.
- **Geometry**: the haversine distance, which both source files define
  identically, and the private helpers of `analytics.ts`: initial bearing,
  `normalizeAngle` and leg speed.
- **Weather display helpers**: the 16-point compass label of a wind direction,
  and knots to and from metres per second.

Modules follow the source files. `Types` holds `TrackPoint` and `WeatherData`
(time is whole milliseconds). `Geometry` holds the haversine formula, which
`gpx-parser.ts` and `analytics.ts` each define privately and identically, and
the private helpers of `analytics.ts` (`calculateBearing`, `calculateSpeed`,
`normalizeAngle`). `gpx-parser.ts` has no such speed helper: it computes a
leg's speed inline, only inside the 5–60 s window, so it never divides by a
zero Δt. `Samples` holds sum, mean, sort and the percentile.
`Legs` views a track as its consecutive pairs. `GpxParser`, `Analytics` and
`Weather` hold the three source files' operations. All arithmetic is over
unbounded reals.

`Math.sin`, `Math.cos`, `Math.sqrt` and `Math.atan2` are not modelled bit for
bit. They are fields of a `MathLib` value passed to every operation that needs
them. `Geometry.Sound` lists the only facts the proofs use: sin 0 = 0,
cos 0 = 1, |cos| ≤ 1, sqrt ≥ 0, sqrt 0 = 0, sqrt 1 = 1, atan2(y, x) ≥ 0 for
y ≥ 0, and atan2(0, x) = 0 for x > 0. `Geometry.SoundIsSatisfiable` shows
these facts are consistent.

The analysis loop is a left fold (`Analytics.Run`) with an accumulator record
(`Tally`) and a two-constructor `Side`. Each property of the fold is proved
against a separate leg-by-leg reference definition: `SpeedsOn`, `VmgsOn`,
`SecondsOn` and `ManeuverAt`/`CountManeuvers`.

## Model

| member | source | states |
|---|---|---|
| Geometry.NormalizeAngle | src/lib/analytics.ts:166-170 | The result lies in [-180, 180]. An input already in range comes back unchanged. The result differs from the input by a whole number of turns. |
| Geometry.NormalizeAngleLoop | src/lib/analytics.ts:166-170 | The two loops (subtract 360 while above 180, then add 360 while below -180) terminate and return exactly `NormalizeAngle`. |
| Geometry.Haversine | src/lib/gpx-parser.ts:94-107 | With sound maths the distance is non-negative, and it is 0 between identical coordinates. |
| Geometry.Bearing | src/lib/analytics.ts:145-155 | The bearing lies in [-180, 180], not in [0, 360). |
| Geometry.CalculateSpeed | src/lib/analytics.ts:157-164 | The speed is 0 when Δt = 0. Otherwise speed × Δt = 1.94384 × haversine distance. With sound maths it is non-negative when time does not run backwards. |
| Samples.MeanTimesCount | src/lib/gpx-parser.ts:76 | The mean times the sample size is the sum of the sample, for every sample including the empty one. |
| Samples.SumPermutation | src/lib/gpx-parser.ts:69-76 | Two samples that are rearrangements of each other have the same sum. |
| Samples.MeanPermutation | src/lib/gpx-parser.ts:69-76 | Two samples that are rearrangements of each other have the same mean, so averaging after the in-place sort gives the mean of the samples as found. |
| Samples.MeanBounds | src/lib/gpx-parser.ts:76 | The mean of a non-empty sample drawn from [lo, hi] lies in [lo, hi]. |
| Samples.Sort | src/lib/gpx-parser.ts:69 | The result is ascending and is a permutation of the input. |
| Samples.SortedPermutationUnique | src/lib/gpx-parser.ts:69 | Two ascending permutations of the same sample are equal, so the percentile does not depend on how the sort works. |
| Samples.Index95 | src/lib/gpx-parser.ts:72 | The index i satisfies i ≤ 0.95·n < i + 1, so it is floor(0.95·n). It is below n for n ≥ 1 and equals n − 1 when n ≤ 20. |
| Samples.Percentile95 | src/lib/gpx-parser.ts:69-73 | An empty sample gives 0. Otherwise the pick is an element of the sample, and some ascending arrangement of the sample holds it at rank floor(0.95·n). |
| Samples.PercentileOfAnyArrangement | src/lib/gpx-parser.ts:69-73 | Every ascending arrangement of a non-empty sample has the same length and holds the percentile at rank floor(0.95·n). |
| Samples.PercentileIsMaxOfSmallSample | src/lib/gpx-parser.ts:72-73 | With at most 20 samples the "95th percentile" is the true maximum. |
| Samples.PercentileCanBeBelowMean | src/lib/gpx-parser.ts:68-77 | Twenty 1-knot samples and one 25-knot sample give max 1 and average 45/21, so max < avg is possible. |
| GpxParser.LegSample | src/lib/gpx-parser.ts:49-61 | A sample exists only for 5 ≤ Δt ≤ 60 s, and then lies in [0.5, 25] kn with sample × Δt = 1.94384 × distance. Every leg inside both windows yields one. |
| GpxParser.StatsRun | src/lib/gpx-parser.ts:42-62 | The walked metres equal the sum of all leg lengths, whatever the filters decide. There is at most one sample per leg, and every sample lies in [0.5, 25]. |
| GpxParser.CalculateStats | src/lib/gpx-parser.ts:33-92 | An empty track gives null and a one-point track gives all zeros. Distance × 1852 is the sum of leg lengths. Duration is the last timestamp minus the first, in seconds, which is also the sum of leg times. The average is the mean of the accepted samples, which equals the mean of the sorted array the source reduces. The maximum is the sample at rank floor(0.95·n) of the ascending samples. With no sample both speeds are 0. Otherwise max is a sample and both speeds lie in [0.5, 25]. |
| GpxParser.StatsAppend | src/lib/gpx-parser.ts:42-62 | Appending a point adds its leg's length to the distance. It adds that leg's sample, if any, and changes no earlier sample. |
| GpxParser.DistanceNonNegative | src/lib/gpx-parser.ts:82 | With sound maths the distance in nautical miles is never negative. |
| GpxParser.DistanceMonotone | src/lib/gpx-parser.ts:46-47 | With sound maths, appending a point never decreases the distance. |
| GpxParser.TenMinuteLegHasNoSample | src/lib/gpx-parser.ts:53 | Two fixes 600 s apart give duration 600 and no sample, so max = avg = 0, while the leg still counts in the distance. A 1852 m leg gives 1.0 nm. |
| Legs.LegSecondsTelescope | src/lib/gpx-parser.ts:79 | The leg durations add up to the last timestamp minus the first. The intermediate points do not matter. |
| Analytics.PointOfSailOf | src/lib/analytics.ts:60-66 | A leg is upwind iff abs(windAngle) < 45 and downwind iff abs(windAngle) > 135. It is a reach iff 45 ≤ abs(windAngle) ≤ 135, so no leg is both. |
| Analytics.TackStep | src/lib/analytics.ts:68-78 | The new side is starboard iff windAngle > 0, so 0 is port. A manoeuvre is counted iff there was a previous side and it differs. It is a jibe iff the current angle exceeds 90 either way, else a tack. |
| Analytics.LegOnCourse | src/lib/analytics.ts:57-58 | The wind angle lies in [-180, 180]. With sound maths and a non-negative speed, abs(VMG) ≤ speed. A course straight into the wind gives angle 0 and VMG = speed. |
| Analytics.TrackLegs | src/lib/analytics.ts:48-58 | There is one leg per consecutive pair, carrying that pair's Δt. On a chronological track with sound maths each leg has speed ≥ 0 and abs(VMG) ≤ speed. |
| Analytics.RunSide | src/lib/analytics.ts:68-78 | After the loop the machine is on the side of the last leg, and on no side before the first leg. |
| Analytics.ManeuversBound | src/lib/analytics.ts:70-76 | For a non-empty leg list, the first leg never completes a manoeuvre, so tacks + jibes ≤ legs − 1. |
| Analytics.RunManeuvers | src/lib/analytics.ts:68-78 | The state machine's tack and jibe counters equal the number of legs whose side differs from the previous leg's, split by the current leg's angle. |
| Analytics.StepSeconds | src/lib/analytics.ts:80-84 | One loop turn credits the leg's Δt to the side of its wind angle and nothing to the other side. |
| Analytics.RunSeconds | src/lib/analytics.ts:80-84 | The seconds on port (starboard) are the sum of the durations of the legs sailed on port (starboard). |
| Analytics.RunSamples | src/lib/analytics.ts:60-66 | The upwind samples hold the speeds and absolute VMGs of exactly the upwind legs, in order; likewise downwind. Reach legs feed neither. |
| Analytics.SidesPartitionTime | src/lib/analytics.ts:80-84 | Port time plus starboard time equals the total of all leg durations. |
| Analytics.SideTimeNonNegative | src/lib/analytics.ts:80-84 | When no leg runs backwards in time, neither side gets negative time. |
| Analytics.VmgSamplesBelowSpeeds | src/lib/analytics.ts:58-66 | If every leg has abs(VMG) ≤ speed, each VMG sample is non-negative and at most the matching speed sample. |
| Analytics.Efficiency | src/lib/analytics.ts:106-107 | The result is 0 when total time ≤ 0. With non-negative times it lies in [0, 50] and, when the total is positive, equals 50 exactly when both sides got equal time. |
| Analytics.BalanceInsight | src/lib/analytics.ts:110-114 | "Balanced" appears iff efficiency > 45. "Unbalanced" appears iff efficiency is not above 45 and is below 30. There is at most one message. |
| Analytics.VmgInsight | src/lib/analytics.ts:116-120 | "Excellent VMG" appears iff vmg > 0.8·avg. "Sail closer" appears iff that fails and vmg < 0.6·avg. There is at most one message. |
| Analytics.Insights | src/lib/analytics.ts:109-129 | There are at most 4 insights, strictly in the order balance, VMG, downwind, frequent tacking. A message appears iff its condition holds, and "Insufficient data" never appears. |
| Analytics.InsightsExclusive | src/lib/analytics.ts:110-120 | The two balance messages never appear together, and neither do the two VMG messages. |
| Analytics.AnalyzePerformance | src/lib/analytics.ts:16-143 | Fewer than 2 points give all zeros and exactly ["Insufficient data for analysis"]. At least 2 points without weather give all zeros and no insight. There are always at most 4 insights. |
| Analytics.AnalyzeReport | src/lib/analytics.ts:56-142 | With weather and at least two points, tacks and jibes are the leg-by-leg manoeuvre counts. Side minutes are the summed durations of each side's legs / 60. Efficiency is the balance of those two sums. Each average is the mean of its point of sail's speeds or absolute VMGs. The insights are exactly the warranted ones for the report's values. |
| Analytics.AnalyzeTotals | src/lib/analytics.ts:80-136 | With weather and at least two points, timeOnPort + timeOnStarboard (minutes) = (last − first timestamp) / 60 s, and tacks + jibes ≤ points − 2. |
| Analytics.AnalyzeEfficiencyBounded | src/lib/analytics.ts:106-107 | On a chronological track the efficiency lies in [0, 50]. |
| Analytics.AnalyzeVmgBounded | src/lib/analytics.ts:90-104 | On a chronological track with sound maths, 0 ≤ vmgUpwind ≤ avgSpeedUpwind and 0 ≤ vmgDownwind ≤ avgSpeedDownwind. |
| Analytics.CloseHauledZigzag | src/lib/analytics.ts:68-78 | Wind angles +30, −30, +30 register exactly 2 tacks and 0 jibes. |
| Analytics.RunningJibe | src/lib/analytics.ts:68-78 | Wind angles +170, −170 register a jibe and no tack. |
| Analytics.JibeJudgedByNewLeg | src/lib/analytics.ts:71 | Wind angles +170 then −30 register a tack, because the current leg's angle decides, not the previous leg's. |
| Weather.Round | src/lib/weather.ts:47 | `Math.round` returns the integer k with x − 0.5 < k ≤ x + 0.5, so a half rounds up. |
| Weather.FormatWindDirection | src/lib/weather.ts:45-49 | Any direction ≥ −11.25° gets a label, and every label returned is one of the 16 compass points. |
| Weather.SectorLabel | src/lib/weather.ts:45-49 | Every direction in the 22.5° sector centred on point k, lower edge included, gets label k mod 16. |
| Weather.CompassPoints | src/lib/weather.ts:46-47 | The results are 0→N, 90→E, 180→S, 270→W, 360→N (through % 16), 11.25→NNE (rounds up) and 11→N. |
| Weather.NegativeDirections | src/lib/weather.ts:47-48 | −30° leaves index −1 and reads `undefined`, while −360° leaves index −0 and reads N. |
| Weather.UndefinedDirections | src/lib/weather.ts:45-49 | A direction reads `undefined` exactly when its rounded sector index is negative and not a multiple of 16. |
| Weather.KnotsToMps | src/lib/weather.ts:51-53 | The conversion preserves positivity. |
| Weather.MpsToKnots | src/lib/weather.ts:55-57 | The result is the inverse of `KnotsToMps`: knotsToMps(mpsToKnots(m)) = m. |
| Weather.KnotsRoundTrip | src/lib/weather.ts:51-57 | mpsToKnots(knotsToMps(k)) = k. |
| Weather.ConversionsIncreasing | src/lib/weather.ts:51-57 | Both conversions map 0 to 0 and are strictly increasing. |

## Behaviour worth knowing

- A change of side counts as a jibe when the **current** leg's wind angle
  exceeds 90° either way (src/lib/analytics.ts:71). So +170° followed by −30°
  counts a tack (`Analytics.JibeJudgedByNewLeg`).
- The bearing is normalised to [-180, 180] (src/lib/analytics.ts:153-154), not
  to [0, 360) (`Geometry.Bearing`).
- With at least two points and no weather, `insights` is the empty list
  (src/lib/analytics.ts:109; `Analytics.AnalyzePerformance`).
- The 95th-percentile "max speed" can be below the average speed once there
  are more than 20 samples. Twenty 1-knot samples and one 25-knot sample give
  max 1 and average 45/21 (`Samples.PercentileCanBeBelowMean`).
- For a direction whose rounded sector index is negative and not a multiple of
  16, and only then, `formatWindDirection` returns `undefined`, modelled as
  `None` (`Weather.UndefinedDirections`; `Weather.NegativeDirections` gives
  −30° → `undefined` and −360° → N as examples).

## Left out

- `parseGPX` (src/lib/gpx-parser.ts:3-31): XML parsing through the browser's
  `DOMParser`. It also defaults a missing timestamp to the current clock.
- `getHistoricalWeather` (src/lib/weather.ts:3-43) and the HTTP routes: network
  fetches, environment variables and persistence.
- The React components and their `formatDuration` helpers: display only.
- IEEE-754 behaviour: rounding, NaN and ±Infinity. The model computes over
  exact reals. `Math.floor(n * 0.95)` is read as the exact floor of 0.95·n.
- Geometry.Haversine: its non-negativity and zero-at-identity follow from the
  `Sound` facts over reals. They are not proved for doubles, where
  `sqrt(1 − a)` can be NaN when rounding pushes `a` above 1.
- The transcendental functions themselves: they are `MathLib` parameters
  constrained only by `Sound`. No property depends on their exact values.
- `console.log` calls: output only.
- The in-place `Array.sort`: it is modelled as a functional insertion sort.
  `Samples.SortedPermutationUnique` shows every sorted permutation gives the
  same percentile, and `Samples.MeanPermutation` shows the sort leaves the
  average unchanged.
- `prevCourse` in `analyzePerformance`: it is assigned on every leg but never
  read.
- Without weather, the loop still computes each leg's course, speed and Δt and
  then discards them. The model skips that loop, which yields the same report.
- The `speed` and `elevation` fields of `TrackPoint` are carried but no analysis
  reads them.
- Insight texts: the report holds an `Insight` value per message.
  `Analytics.Message` gives each value's exact source string.

=== FILE: analytics.dfy ===
/**
 * Performance analysis (`analyzePerformance`): every leg's course is taken
 * relative to the wind, the leg is classed as upwind, downwind or reach, a
 * port/starboard state machine counts tacks and jibes and times each tack,
 * and the totals become averages, VMG, a balance figure and insights.
 */
module Analytics {
  import opened Types
  import opened Geometry
  import opened Samples
  import opened Legs

  /** The side the wind comes over. */
  datatype Side = Port | Starboard

  /** A change of side: through the wind ahead (tack) or astern (jibe). */
  datatype Maneuver = Tack | Jibe

  /** Where a leg lies relative to the wind. */
  datatype PointOfSail = Upwind | Reach | Downwind

  /** The insight messages, in the order the source may emit them. */
  datatype Insight =
    | BalancedTacking
    | UnbalancedTacking
    | GoodUpwindVmg
    | PoorUpwindVmg
    | FastDownwind
    | FrequentTacking
    | InsufficientData

  /** The text of each insight. */
  function Message(i: Insight): string
  {
    match i
    case BalancedTacking => "Good tack balance - you sailed nearly equal time on both tacks"
    case UnbalancedTacking => "Consider more balanced tacking - you favored one tack significantly"
    case GoodUpwindVmg => "Excellent upwind VMG - you're sailing close to optimal angles"
    case PoorUpwindVmg => "Consider sailing closer to the wind or at better angles for improved upwind performance"
    case FastDownwind => "Great downwind speed - you're making good use of the wind"
    case FrequentTacking => "Frequent tacking detected - consider longer tacks for better speed"
    case InsufficientData => "Insufficient data for analysis"
  }

  /**
   * The report. Times on each tack are in minutes, speeds and VMG in knots,
   * efficiency in percent.
   */
  datatype PerformanceMetrics = PerformanceMetrics(
    efficiency: real,
    tacks: nat,
    jibes: nat,
    timeOnPort: real,
    timeOnStarboard: real,
    avgSpeedUpwind: real,
    avgSpeedDownwind: real,
    vmgUpwind: real,
    vmgDownwind: real,
    insights: seq<Insight>
  )

  /** What one leg contributes: wind angle in degrees, speed and VMG in knots, duration in seconds. */
  datatype Leg = Leg(windAngle: real, speed: real, vmg: real, seconds: real)

  function Abs(x: real): real
  {
    if x < 0.0 then -x else x
  }

  // ---------------------------------------------------------------------
  // Classification and the tack state machine
  // ---------------------------------------------------------------------

  /** Upwind within 45 degrees of the wind, downwind within 45 degrees of dead astern, reach between. */
  function PointOfSailOf(windAngle: real): (p: PointOfSail)
    ensures p == Upwind <==> Abs(windAngle) < 45.0
    ensures p == Downwind <==> Abs(windAngle) > 135.0
    ensures p == Reach <==> 45.0 <= Abs(windAngle) <= 135.0
  {
    if windAngle > 135.0 || windAngle < -135.0 then Downwind
    else if windAngle < 45.0 && windAngle > -45.0 then Upwind
    else Reach
  }

  /** Starboard for a positive wind angle, port otherwise (0 included). */
  function SideOf(windAngle: real): Side
  {
    if windAngle > 0.0 then Starboard else Port
  }

  /**
   * One transition of the tack machine from the current side (none before
   * the first leg) on a leg with the given wind angle: the new side and the
   * manoeuvre counted, if any. A change of side is a jibe when the CURRENT
   * leg's wind angle exceeds 90 degrees either way, a tack otherwise.
   */
  function TackStep(current: Option<Side>, windAngle: real): (r: (Side, Option<Maneuver>))
    ensures r.0 == Starboard <==> windAngle > 0.0
    ensures r.1.Some? <==> current.Some? && current.value != r.0
    ensures r.1 == Some(Jibe) <==> r.1.Some? && Abs(windAngle) > 90.0
    ensures r.1 == Some(Tack) <==> r.1.Some? && Abs(windAngle) <= 90.0
  {
    var newTack := SideOf(windAngle);
    if current.Some? && current.value != newTack then
      if windAngle > 90.0 || windAngle < -90.0 then (newTack, Some(Jibe)) else (newTack, Some(Tack))
    else
      (newTack, None)
  }

  // ---------------------------------------------------------------------
  // Legs
  // ---------------------------------------------------------------------

  /** A leg sailed on `course` at `speed` knots for `seconds`, with the wind from `windDirection`. */
  function LegOnCourse(m: MathLib, course: real, speed: real, seconds: real, windDirection: real): (leg: Leg)
    ensures -180.0 <= leg.windAngle <= 180.0
    ensures leg.speed == speed && leg.seconds == seconds
    ensures Sound(m) && speed >= 0.0 ==> Abs(leg.vmg) <= leg.speed
    ensures Sound(m) && course == windDirection ==> leg.windAngle == 0.0 && leg.vmg == speed
  {
    var windAngle := NormalizeAngle(course - windDirection);
    var vmg := speed * m.cos((windAngle * Pi) / 180.0);
    assert Sound(m) && speed >= 0.0 ==> Abs(vmg) <= speed by {
      if Sound(m) && speed >= 0.0 {
        CosineScales(m.cos((windAngle * Pi) / 180.0), speed);
      }
    }
    Leg(windAngle, speed, vmg, seconds)
  }

  /** Scaling a non-negative speed by a cosine in [-1, 1] cannot enlarge it. */
  lemma CosineScales(c: real, speed: real)
    requires -1.0 <= c <= 1.0 && speed >= 0.0
    ensures Abs(speed * c) <= speed
  {
    if c >= 0.0 {
      assert speed * c <= speed * 1.0;
    } else {
      assert speed * (-c) <= speed * 1.0;
    }
  }

  /** The leg from `prev` to `curr`. */
  function LegOf(m: MathLib, prev: TrackPoint, curr: TrackPoint, windDirection: real): Leg
  {
    var course := Bearing(m, prev.lat, prev.lon, curr.lat, curr.lon);
    var speed := CalculateSpeed(m, prev, curr);
    LegOnCourse(m, course, speed, ElapsedSeconds(prev, curr), windDirection)
  }

  /** The legs of a track against a wind from `windDirection`. */
  function TrackLegs(m: MathLib, pts: seq<TrackPoint>, windDirection: real): (legs: seq<Leg>)
    ensures |legs| == LegCount(pts)
    ensures forall i :: 0 <= i < |legs| ==> legs[i].seconds == LegSeconds(pts)[i]
    ensures Sound(m) && Chronological(pts) ==>
              forall i :: 0 <= i < |legs| ==> 0.0 <= legs[i].speed && Abs(legs[i].vmg) <= legs[i].speed
  {
    seq(LegCount(pts), i requires 0 <= i < LegCount(pts) => LegOf(m, pts[i], pts[i + 1], windDirection))
  }

  // ---------------------------------------------------------------------
  // Reference definitions: what the fold must compute, leg by leg
  // ---------------------------------------------------------------------

  /** The durations of the legs. */
  function SecondsOf(legs: seq<Leg>): (r: seq<real>)
    ensures |r| == |legs|
  {
    seq(|legs|, i requires 0 <= i < |legs| => legs[i].seconds)
  }

  /** Durations of the legs sailed on side `s`, in order. */
  function SecondsOn(legs: seq<Leg>, s: Side): seq<real>
    decreases |legs|
  {
    if |legs| == 0 then []
    else
      var last := legs[|legs| - 1];
      SecondsOn(legs[..|legs| - 1], s) + (if SideOf(last.windAngle) == s then [last.seconds] else [])
  }

  /** Speeds of the legs with point of sail `p`, in order. */
  function SpeedsOn(legs: seq<Leg>, p: PointOfSail): seq<real>
    decreases |legs|
  {
    if |legs| == 0 then []
    else
      var last := legs[|legs| - 1];
      SpeedsOn(legs[..|legs| - 1], p) + (if PointOfSailOf(last.windAngle) == p then [last.speed] else [])
  }

  /** Absolute VMGs of the legs with point of sail `p`, in order. */
  function VmgsOn(legs: seq<Leg>, p: PointOfSail): seq<real>
    decreases |legs|
  {
    if |legs| == 0 then []
    else
      var last := legs[|legs| - 1];
      VmgsOn(legs[..|legs| - 1], p) + (if PointOfSailOf(last.windAngle) == p then [Abs(last.vmg)] else [])
  }

  /**
   * The manoeuvre completed on leg `i`: none on the first leg or when the
   * side stays the same; otherwise decided by leg `i`'s own wind angle.
   */
  function ManeuverAt(legs: seq<Leg>, i: nat): Option<Maneuver>
    requires i < |legs|
  {
    if i == 0 || SideOf(legs[i - 1].windAngle) == SideOf(legs[i].windAngle) then None
    else if Abs(legs[i].windAngle) > 90.0 then Some(Jibe)
    else Some(Tack)
  }

  /** How many legs complete a manoeuvre of kind `k`. */
  function CountManeuvers(legs: seq<Leg>, k: Maneuver): nat
    decreases |legs|
  {
    if |legs| == 0 then 0
    else CountManeuvers(legs[..|legs| - 1], k) + (if ManeuverAt(legs, |legs| - 1) == Some(k) then 1 else 0)
  }

  /** Only legs after the first can complete a manoeuvre. */
  lemma {:induction false} ManeuversBound(legs: seq<Leg>)
    requires |legs| > 0
    ensures CountManeuvers(legs, Tack) + CountManeuvers(legs, Jibe) <= |legs| - 1
    decreases |legs|
  {
    if |legs| > 1 {
      ManeuversBound(legs[..|legs| - 1]);
    }
  }

  // ---------------------------------------------------------------------
  // The leg loop as a fold
  // ---------------------------------------------------------------------

  /** Loop state: counters, seconds on each side, the four samples and the current side. */
  datatype Tally = Tally(
    tacks: nat,
    jibes: nat,
    portSeconds: real,
    starboardSeconds: real,
    upwindSpeeds: seq<real>,
    downwindSpeeds: seq<real>,
    upwindVmgs: seq<real>,
    downwindVmgs: seq<real>,
    side: Option<Side>
  )

  /** The state before the first leg. */
  const Start: Tally := Tally(0, 0, 0.0, 0.0, [], [], [], [], None)

  /** One turn of the loop body when weather is present. */
  function Step(t: Tally, leg: Leg): Tally
  {
    var pos := PointOfSailOf(leg.windAngle);
    var t1 :=
      if pos == Downwind then
        t.(downwindSpeeds := t.downwindSpeeds + [leg.speed], downwindVmgs := t.downwindVmgs + [Abs(leg.vmg)])
      else if pos == Upwind then
        t.(upwindSpeeds := t.upwindSpeeds + [leg.speed], upwindVmgs := t.upwindVmgs + [Abs(leg.vmg)])
      else t;
    var (side, event) := TackStep(t1.side, leg.windAngle);
    var t2 :=
      if event == Some(Jibe) then t1.(jibes := t1.jibes + 1)
      else if event == Some(Tack) then t1.(tacks := t1.tacks + 1)
      else t1;
    if side == Port then t2.(side := Some(side), portSeconds := t2.portSeconds + leg.seconds)
    else t2.(side := Some(side), starboardSeconds := t2.starboardSeconds + leg.seconds)
  }

  /** The loop over all legs, from `Start`. */
  function Run(legs: seq<Leg>): Tally
    decreases |legs|
  {
    if |legs| == 0 then Start else Step(Run(legs[..|legs| - 1]), legs[|legs| - 1])
  }

  /** After the loop the machine is on the side of the last leg, and on no side before any leg. */
  lemma RunSide(legs: seq<Leg>)
    ensures Run(legs).side == (if |legs| == 0 then None else Some(SideOf(legs[|legs| - 1].windAngle)))
  {
  }

  /** The machine counts exactly one manoeuvre per change of side, of the kind the new leg's angle decides. */
  lemma {:induction false} RunManeuvers(legs: seq<Leg>)
    ensures Run(legs).tacks == CountManeuvers(legs, Tack)
    ensures Run(legs).jibes == CountManeuvers(legs, Jibe)
    decreases |legs|
  {
    if |legs| > 0 {
      var init := legs[..|legs| - 1];
      RunManeuvers(init);
      RunSide(init);
    }
  }

  /** One turn credits the leg's seconds to the side of its wind angle, and nothing to the other. */
  lemma StepSeconds(t: Tally, leg: Leg)
    ensures Step(t, leg).portSeconds == t.portSeconds + (if SideOf(leg.windAngle) == Port then leg.seconds else 0.0)
    ensures Step(t, leg).starboardSeconds == t.starboardSeconds + (if SideOf(leg.windAngle) == Starboard then leg.seconds else 0.0)
  {
  }

  /** The seconds credited to each side are those of the legs sailed on that side. */
  lemma {:induction false} RunSeconds(legs: seq<Leg>)
    ensures Run(legs).portSeconds == Sum(SecondsOn(legs, Port))
    ensures Run(legs).starboardSeconds == Sum(SecondsOn(legs, Starboard))
    decreases |legs|
  {
    if |legs| > 0 {
      var init := legs[..|legs| - 1];
      var last := legs[|legs| - 1];
      RunSeconds(init);
      StepSeconds(Run(init), last);
      assert Run(legs) == Step(Run(init), last);
      if SideOf(last.windAngle) == Port {
        SumSnoc(SecondsOn(init, Port), last.seconds);
        assert SecondsOn(legs, Starboard) == SecondsOn(init, Starboard);
      } else {
        SumSnoc(SecondsOn(init, Starboard), last.seconds);
        assert SecondsOn(legs, Port) == SecondsOn(init, Port);
      }
    }
  }

  /** Only upwind legs feed the upwind samples and only downwind legs the downwind ones. */
  lemma {:induction false} RunSamples(legs: seq<Leg>)
    ensures Run(legs).upwindSpeeds == SpeedsOn(legs, Upwind)
    ensures Run(legs).upwindVmgs == VmgsOn(legs, Upwind)
    ensures Run(legs).downwindSpeeds == SpeedsOn(legs, Downwind)
    ensures Run(legs).downwindVmgs == VmgsOn(legs, Downwind)
    decreases |legs|
  {
    if |legs| > 0 {
      var init := legs[..|legs| - 1];
      RunSamples(init);
    }
  }

  // ---------------------------------------------------------------------
  // Aggregation and insights
  // ---------------------------------------------------------------------

  function Min(a: real, b: real): real
  {
    if a <= b then a else b
  }

  /**
   * Tack balance in percent: the shorter side's share of the total time,
   * 0 when the total is not positive. With non-negative times it lies in
   * [0, 50] and reaches 50 exactly when both sides got equal time.
   */
  function Efficiency(port: real, starboard: real): (e: real)
    ensures port + starboard <= 0.0 ==> e == 0.0
    ensures port >= 0.0 && starboard >= 0.0 ==> 0.0 <= e <= 50.0
    ensures port >= 0.0 && starboard >= 0.0 && port + starboard > 0.0 ==> (e == 50.0 <==> port == starboard)
  {
    var totalTime := port + starboard;
    if totalTime > 0.0 then
      assert port >= 0.0 && starboard >= 0.0 ==>
               && 0.0 <= Min(port, starboard) / totalTime * 100.0 <= 50.0
               && (Min(port, starboard) / totalTime * 100.0 == 50.0 <==> port == starboard) by {
        if port >= 0.0 && starboard >= 0.0 {
          ShareOfTotal(Min(port, starboard), totalTime, port == starboard);
        }
      }
      Min(port, starboard) / totalTime * 100.0
    else 0.0
  }

  /** The shorter of two non-negative parts is at most half their total, and exactly half iff they are equal. */
  lemma ShareOfTotal(low: real, total: real, equal: bool)
    requires total > 0.0 && 0.0 <= low && 2.0 * low <= total
    requires equal <==> 2.0 * low == total
    ensures 0.0 <= low / total * 100.0 <= 50.0
    ensures low / total * 100.0 == 50.0 <==> equal
  {
    var q := low / total;
    assert q * total == low;
    assert (2.0 * q - 1.0) * total == 2.0 * low - total;
    NonPositiveFactor(2.0 * q - 1.0, total);
  }

  /** A product with a positive factor has the sign of the other factor. */
  lemma NonPositiveFactor(a: real, b: real)
    requires b > 0.0
    ensures a * b <= 0.0 ==> a <= 0.0
    ensures a * b == 0.0 ==> a == 0.0
  {
  }

  /**
   * The check an insight comes from (0 balance, 1 VMG, 2 downwind,
   * 3 tacking, 4 the short-track notice): its place in the output.
   */
  function Group(i: Insight): nat
  {
    match i
    case BalancedTacking => 0
    case UnbalancedTacking => 0
    case GoodUpwindVmg => 1
    case PoorUpwindVmg => 1
    case FastDownwind => 2
    case FrequentTacking => 3
    case InsufficientData => 4
  }

  /** At most one message, all from group `g`. */
  predicate OneOf(s: seq<Insight>, g: nat)
  {
    |s| <= 1 && forall i :: 0 <= i < |s| ==> Group(s[i]) == g
  }

  /** Four optional messages from groups 0 to 3, joined, come out in group order. */
  lemma JoinGroups(a: seq<Insight>, b: seq<Insight>, c: seq<Insight>, d: seq<Insight>)
    requires OneOf(a, 0) && OneOf(b, 1) && OneOf(c, 2) && OneOf(d, 3)
    ensures |a + b + c + d| <= 4
    ensures forall i, j :: 0 <= i < j < |a + b + c + d| ==> Group((a + b + c + d)[i]) < Group((a + b + c + d)[j])
    ensures forall x :: x in a + b + c + d <==> x in a || x in b || x in c || x in d
  {
  }

  /** The tack-balance check: balanced above 45 %, unbalanced below 30 %, silent between. */
  function BalanceInsight(efficiency: real): (s: seq<Insight>)
    ensures OneOf(s, 0)
    ensures BalancedTacking in s <==> efficiency > 45.0
    ensures UnbalancedTacking in s <==> !(efficiency > 45.0) && efficiency < 30.0
  {
    if efficiency > 45.0 then [BalancedTacking]
    else if efficiency < 30.0 then [UnbalancedTacking]
    else []
  }

  /** The upwind VMG check against 80 % and 60 % of the upwind speed; the first test wins. */
  function VmgInsight(vmgUpwind: real, avgSpeedUpwind: real): (s: seq<Insight>)
    ensures OneOf(s, 1)
    ensures GoodUpwindVmg in s <==> vmgUpwind > avgSpeedUpwind * 0.8
    ensures PoorUpwindVmg in s <==> !(vmgUpwind > avgSpeedUpwind * 0.8) && vmgUpwind < avgSpeedUpwind * 0.6
  {
    if vmgUpwind > avgSpeedUpwind * 0.8 then [GoodUpwindVmg]
    else if vmgUpwind < avgSpeedUpwind * 0.6 then [PoorUpwindVmg]
    else []
  }

  /**
   * The condition under which each message is due, read check by check; the
   * second message of the balance and of the VMG check applies only when the
   * first does not.
   */
  predicate Warranted(x: Insight, efficiency: real, vmgUpwind: real, avgSpeedUpwind: real,
                      avgSpeedDownwind: real, tacks: nat, pointCount: nat)
  {
    match x
    case BalancedTacking => efficiency > 45.0
    case UnbalancedTacking => !(efficiency > 45.0) && efficiency < 30.0
    case GoodUpwindVmg => vmgUpwind > avgSpeedUpwind * 0.8
    case PoorUpwindVmg => !(vmgUpwind > avgSpeedUpwind * 0.8) && vmgUpwind < avgSpeedUpwind * 0.6
    case FastDownwind => avgSpeedDownwind > avgSpeedUpwind * 1.5
    case FrequentTacking => tacks as real > pointCount as real / 50.0
    case InsufficientData => false
  }

  /**
   * The insights for a track with weather: exactly the warranted messages,
   * at most one per check, in the fixed order balance, VMG, downwind,
   * tacking.
   */
  function Insights(efficiency: real, vmgUpwind: real, avgSpeedUpwind: real, avgSpeedDownwind: real,
                    tacks: nat, pointCount: nat): (r: seq<Insight>)
    ensures |r| <= 4
    ensures forall i, j :: 0 <= i < j < |r| ==> Group(r[i]) < Group(r[j])
    ensures forall x :: x in r <==> Warranted(x, efficiency, vmgUpwind, avgSpeedUpwind, avgSpeedDownwind, tacks, pointCount)
  {
    var balance := BalanceInsight(efficiency);
    var vmg := VmgInsight(vmgUpwind, avgSpeedUpwind);
    var downwind := if avgSpeedDownwind > avgSpeedUpwind * 1.5 then [FastDownwind] else [];
    var tacking := if tacks as real > pointCount as real / 50.0 then [FrequentTacking] else [];
    JoinGroups(balance, vmg, downwind, tacking);
    balance + vmg + downwind + tacking
  }

  /** The two balance messages never appear together, nor do the two VMG messages. */
  lemma InsightsExclusive(efficiency: real, vmgUpwind: real, avgSpeedUpwind: real, avgSpeedDownwind: real,
                          tacks: nat, pointCount: nat)
    ensures var r := Insights(efficiency, vmgUpwind, avgSpeedUpwind, avgSpeedDownwind, tacks, pointCount);
            && !(BalancedTacking in r && UnbalancedTacking in r)
            && !(GoodUpwindVmg in r && PoorUpwindVmg in r)
  {
  }

  /** The report for fewer than two points. */
  const InsufficientReport: PerformanceMetrics :=
    PerformanceMetrics(0.0, 0, 0, 0.0, 0.0, 0.0, 0.0, 0.0, 0.0, [InsufficientData])

  /**
   * `analyzePerformance`. Without weather the loop accumulates nothing, so
   * the report is all zeros with no insight; with weather it folds the legs.
   */
  function AnalyzePerformance(m: MathLib, pts: seq<TrackPoint>, weather: Option<WeatherData>): (r: PerformanceMetrics)
    ensures |pts| < 2 ==> r == InsufficientReport
    ensures |pts| >= 2 && weather.None? ==> r == PerformanceMetrics(0.0, 0, 0, 0.0, 0.0, 0.0, 0.0, 0.0, 0.0, [])
    ensures |r.insights| <= 4
  {
    if |pts| < 2 then InsufficientReport
    else
      var t := if weather.Some? then Run(TrackLegs(m, pts, weather.value.windDirection)) else Start;
      var avgSpeedUpwind := Mean(t.upwindSpeeds);
      var avgSpeedDownwind := Mean(t.downwindSpeeds);
      var vmgUpwind := Mean(t.upwindVmgs);
      var vmgDownwind := Mean(t.downwindVmgs);
      var efficiency := Efficiency(t.portSeconds, t.starboardSeconds);
      var insights :=
        if weather.Some? then Insights(efficiency, vmgUpwind, avgSpeedUpwind, avgSpeedDownwind, t.tacks, |pts|)
        else [];
      PerformanceMetrics(efficiency, t.tacks, t.jibes, t.portSeconds / 60.0, t.starboardSeconds / 60.0,
                         avgSpeedUpwind, avgSpeedDownwind, vmgUpwind, vmgDownwind, insights)
  }

  // ---------------------------------------------------------------------
  // Properties of the report
  // ---------------------------------------------------------------------

  /** Every leg is sailed on exactly one side, so the side times add up to all the leg times. */
  lemma {:induction false} SidesPartitionTime(legs: seq<Leg>)
    ensures Sum(SecondsOn(legs, Port)) + Sum(SecondsOn(legs, Starboard)) == Sum(SecondsOf(legs))
    decreases |legs|
  {
    if |legs| > 0 {
      var init := legs[..|legs| - 1];
      var last := legs[|legs| - 1];
      SidesPartitionTime(init);
      assert SecondsOf(legs) == SecondsOf(init) + [last.seconds];
      SumSnoc(SecondsOf(init), last.seconds);
      if SideOf(last.windAngle) == Port {
        SumSnoc(SecondsOn(init, Port), last.seconds);
        assert SecondsOn(legs, Starboard) == SecondsOn(init, Starboard);
      } else {
        SumSnoc(SecondsOn(init, Starboard), last.seconds);
        assert SecondsOn(legs, Port) == SecondsOn(init, Port);
      }
    }
  }

  /** With no leg running backwards in time, neither side is credited negative time. */
  lemma {:induction false} SideTimeNonNegative(legs: seq<Leg>, s: Side)
    requires forall i :: 0 <= i < |legs| ==> legs[i].seconds >= 0.0
    ensures Sum(SecondsOn(legs, s)) >= 0.0
    decreases |legs|
  {
    if |legs| > 0 {
      var init := legs[..|legs| - 1];
      var last := legs[|legs| - 1];
      SideTimeNonNegative(init, s);
      if SideOf(last.windAngle) == s {
        SumSnoc(SecondsOn(init, s), last.seconds);
      } else {
        assert SecondsOn(legs, s) == SecondsOn(init, s);
      }
    }
  }

  /**
   * When every leg's absolute VMG is at most its speed, the VMG samples of a
   * point of sail are bounded elementwise by its speed samples.
   */
  lemma {:induction false} VmgSamplesBelowSpeeds(legs: seq<Leg>, p: PointOfSail)
    requires forall i :: 0 <= i < |legs| ==> 0.0 <= legs[i].speed && Abs(legs[i].vmg) <= legs[i].speed
    ensures |VmgsOn(legs, p)| == |SpeedsOn(legs, p)|
    ensures forall i :: 0 <= i < |VmgsOn(legs, p)| ==> 0.0 <= VmgsOn(legs, p)[i] <= SpeedsOn(legs, p)[i]
    decreases |legs|
  {
    if |legs| > 0 {
      VmgSamplesBelowSpeeds(legs[..|legs| - 1], p);
    }
  }

  /**
   * With weather, the time on port plus the time on starboard is the track's
   * duration in minutes, and the manoeuvres number at most one fewer than the legs.
   */
  lemma AnalyzeTotals(m: MathLib, pts: seq<TrackPoint>, w: WeatherData)
    requires |pts| >= 2
    ensures var r := AnalyzePerformance(m, pts, Some(w));
            && r.timeOnPort + r.timeOnStarboard == ElapsedSeconds(pts[0], pts[|pts| - 1]) / 60.0
            && r.tacks + r.jibes <= |pts| - 2
  {
    var legs := TrackLegs(m, pts, w.windDirection);
    RunSeconds(legs);
    RunManeuvers(legs);
    SidesPartitionTime(legs);
    assert SecondsOf(legs) == LegSeconds(pts);
    LegSecondsTelescope(pts);
    ManeuversBound(legs);
  }

  /**
   * With weather, every field of the report is what the leg-by-leg
   * definitions give: manoeuvres per change of side, minutes on each side,
   * the mean speed and mean absolute VMG of each point of sail, the tack
   * balance of the two side times, and exactly the warranted insights.
   */
  lemma AnalyzeReport(m: MathLib, pts: seq<TrackPoint>, w: WeatherData)
    requires |pts| >= 2
    ensures var legs := TrackLegs(m, pts, w.windDirection);
            var r := AnalyzePerformance(m, pts, Some(w));
            && r.tacks == CountManeuvers(legs, Tack)
            && r.jibes == CountManeuvers(legs, Jibe)
            && r.timeOnPort == Sum(SecondsOn(legs, Port)) / 60.0
            && r.timeOnStarboard == Sum(SecondsOn(legs, Starboard)) / 60.0
            && r.efficiency == Efficiency(Sum(SecondsOn(legs, Port)), Sum(SecondsOn(legs, Starboard)))
            && r.avgSpeedUpwind == Mean(SpeedsOn(legs, Upwind))
            && r.avgSpeedDownwind == Mean(SpeedsOn(legs, Downwind))
            && r.vmgUpwind == Mean(VmgsOn(legs, Upwind))
            && r.vmgDownwind == Mean(VmgsOn(legs, Downwind))
            && forall x :: x in r.insights <==>
                 Warranted(x, r.efficiency, r.vmgUpwind, r.avgSpeedUpwind, r.avgSpeedDownwind, r.tacks, |pts|)
  {
    var legs := TrackLegs(m, pts, w.windDirection);
    RunManeuvers(legs);
    RunSeconds(legs);
    RunSamples(legs);
  }

  /** On a chronological track the tack balance lies in [0, 50] percent. */
  lemma AnalyzeEfficiencyBounded(m: MathLib, pts: seq<TrackPoint>, weather: Option<WeatherData>)
    requires Chronological(pts)
    ensures 0.0 <= AnalyzePerformance(m, pts, weather).efficiency <= 50.0
  {
    if |pts| >= 2 && weather.Some? {
      var legs := TrackLegs(m, pts, weather.value.windDirection);
      RunSeconds(legs);
      ChronologicalLegs(pts);
      SideTimeNonNegative(legs, Port);
      SideTimeNonNegative(legs, Starboard);
    }
  }

  /**
   * On a chronological track with a sound math library, each average VMG is
   * non-negative and at most the average speed of the same point of sail.
   */
  lemma AnalyzeVmgBounded(m: MathLib, pts: seq<TrackPoint>, weather: Option<WeatherData>)
    requires Sound(m) && Chronological(pts)
    ensures var r := AnalyzePerformance(m, pts, weather);
            && 0.0 <= r.vmgUpwind <= r.avgSpeedUpwind
            && 0.0 <= r.vmgDownwind <= r.avgSpeedDownwind
  {
    if |pts| >= 2 && weather.Some? {
      var legs := TrackLegs(m, pts, weather.value.windDirection);
      RunSamples(legs);
      VmgSamplesBelowSpeeds(legs, Upwind);
      VmgSamplesBelowSpeeds(legs, Downwind);
      MeanNonNegative(VmgsOn(legs, Upwind));
      MeanNonNegative(VmgsOn(legs, Downwind));
      MeanMonotone(VmgsOn(legs, Upwind), SpeedsOn(legs, Upwind));
      MeanMonotone(VmgsOn(legs, Downwind), SpeedsOn(legs, Downwind));
    }
  }

  // ---------------------------------------------------------------------
  // Tack sequences
  // ---------------------------------------------------------------------

  /** Legs at +30, -30, +30 degrees off the wind: two tacks, no jibe. */
  lemma CloseHauledZigzag(a: Leg, b: Leg, c: Leg)
    requires a.windAngle == 30.0 && b.windAngle == -30.0 && c.windAngle == 30.0
    ensures Run([a, b, c]).tacks == 2 && Run([a, b, c]).jibes == 0
  {
    assert [a, b, c][..2] == [a, b];
    assert [a, b][..1] == [a];
    assert [a][..0] == [];
    var t1 := Run([a]);
    assert Run([]) == Start;
    assert t1 == Step(Run([a][..0]), a);
    assert t1.side == Some(Starboard) && t1.tacks == 0 && t1.jibes == 0;
    var t2 := Run([a, b]);
    assert t2 == Step(t1, b);
    assert t2.side == Some(Port) && t2.tacks == 1 && t2.jibes == 0;
    assert Run([a, b, c]) == Step(t2, c);
  }

  /** Legs at +170 then -170 degrees: the change of side is a jibe. */
  lemma RunningJibe(a: Leg, b: Leg)
    requires a.windAngle == 170.0 && b.windAngle == -170.0
    ensures Run([a, b]).tacks == 0 && Run([a, b]).jibes == 1
  {
    assert [a, b][..1] == [a];
    assert [a][..0] == [];
    var t1 := Run([a]);
    assert Run([]) == Start;
    assert t1 == Step(Run([a][..0]), a);
    assert t1.side == Some(Starboard) && t1.tacks == 0 && t1.jibes == 0;
    var t2 := Run([a, b]);
    assert t2 == Step(t1, b);
    assert t2.side == Some(Port) && t2.tacks == 0 && t2.jibes == 1;
  }

  /**
   * Legs at +170 then -30 degrees: the side changes after a run, yet it is
   * counted as a tack because the new leg's angle is within 90 degrees.
   */
  lemma JibeJudgedByNewLeg(a: Leg, b: Leg)
    requires a.windAngle == 170.0 && b.windAngle == -30.0
    ensures Run([a, b]).tacks == 1 && Run([a, b]).jibes == 0
  {
    assert [a, b][..1] == [a];
    assert [a][..0] == [];
    var t1 := Run([a]);
    assert Run([]) == Start;
    assert t1 == Step(Run([a][..0]), a);
    assert t1.side == Some(Starboard) && t1.tacks == 0 && t1.jibes == 0;
    var t2 := Run([a, b]);
    assert t2 == Step(t1, b);
    assert t2.side == Some(Port) && t2.tacks == 1 && t2.jibes == 0;
  }
}

=== FILE: geometry.dfy ===
/**
 * Geometry shared by the statistics and the performance analysis:
 * great-circle distance, initial bearing, angle normalisation and leg speed.
 *
 * The floating-point library (sin, cos, sqrt, atan2) is not modelled bit for
 * bit: it is a `MathLib` value passed in, and `Sound` lists the only facts
 * about it that the proofs use.
 */
module Geometry {
  import opened Types

  /** `Math.PI`, read as an exact rational. */
  const Pi: real := 3.141592653589793
  /** Mean Earth radius in metres (`6371e3`). */
  const EarthRadiusMeters: real := 6371000.0
  /** Metres per second to knots. */
  const KnotsPerMps: real := 1.94384

  /** The transcendental functions the source takes from `Math`. */
  datatype MathLib = MathLib(
    sin: real -> real,
    cos: real -> real,
    sqrt: real -> real,
    atan2: (real, real) -> real
  )

  /** The facts about `Math` that the analytics rely on. */
  ghost predicate Sound(m: MathLib)
  {
    && m.sin(0.0) == 0.0
    && m.cos(0.0) == 1.0
    && (forall x :: -1.0 <= m.cos(x) <= 1.0)
    && m.sqrt(0.0) == 0.0
    && m.sqrt(1.0) == 1.0
    && (forall x :: m.sqrt(x) >= 0.0)
    && (forall y, x :: y >= 0.0 ==> m.atan2(y, x) >= 0.0)
    && (forall x :: x > 0.0 ==> m.atan2(0.0, x) == 0.0)
  }

  /** The facts of `Sound` do not contradict each other: a crude library meets them. */
  lemma SoundIsSatisfiable()
    ensures Sound(MathLib(x => 0.0, x => 1.0, x => if x == 1.0 then 1.0 else 0.0, (y, x) => 0.0))
  {
  }

  /** The smallest integer not below `x`. */
  function Ceil(x: real): (k: int)
    ensures x <= k as real < x + 1.0
  {
    -((-x).Floor)
  }

  /** `x` is a whole number. */
  predicate IsWhole(x: real)
  {
    x.Floor as real == x
  }

  /**
   * The value `normalizeAngle` returns: an angle above 180 is lowered by the
   * fewest whole turns that bring it to at most 180, an angle below -180 is
   * raised by the fewest whole turns that bring it to at least -180.
   */
  function NormalizeAngle(angle: real): (r: real)
    ensures -180.0 <= r <= 180.0
    ensures -180.0 <= angle <= 180.0 ==> r == angle
    ensures IsWhole((angle - r) / 360.0)
  {
    if angle > 180.0 then
      var k := Ceil((angle - 180.0) / 360.0);
      WholeTurns(angle, -k);
      angle - 360.0 * k as real
    else if angle < -180.0 then
      var k := Ceil((-180.0 - angle) / 360.0);
      WholeTurns(angle, k);
      angle + 360.0 * k as real
    else
      assert (angle - angle) / 360.0 == 0 as real;
      angle
  }

  /** Adding `k` whole turns to an angle changes it by a whole number of turns. */
  lemma WholeTurns(angle: real, k: int)
    ensures IsWhole((angle - (angle + 360.0 * k as real)) / 360.0)
  {
    var turns := 360.0 * k as real;
    assert angle - (angle + turns) == -turns;
    assert -turns / 360.0 == (-k) as real;
    assert ((-k) as real).Floor == -k;
  }

  /**
   * `normalizeAngle` as the source writes it: two loops, one subtracting and
   * one adding a full turn. It terminates and computes `NormalizeAngle`.
   */
  method NormalizeAngleLoop(angle: real) returns (r: real)
    ensures r == NormalizeAngle(angle)
  {
    r := angle;
    ghost var k: int := 0;
    while r > 180.0
      invariant k >= 0
      invariant r == angle - 360.0 * k as real
      invariant k > 0 ==> r + 360.0 > 180.0
      decreases (r - 180.0).Floor
    {
      r := r - 360.0;
      k := k + 1;
    }
    ghost var j: int := 0;
    while r < -180.0
      invariant j >= 0
      invariant r == angle - 360.0 * k as real + 360.0 * j as real
      invariant j > 0 ==> k == 0 && r - 360.0 < -180.0
      decreases (-180.0 - r).Floor
    {
      r := r + 360.0;
      j := j + 1;
    }
    if k > 0 {
      TurnCount((angle - 180.0) / 360.0, k);
    } else if j > 0 {
      TurnCount((-180.0 - angle) / 360.0, j);
    }
  }

  /** An integer `k` with `k - 1 < x <= k` is the ceiling of `x`. */
  lemma TurnCount(x: real, k: int)
    requires x <= k as real && k as real - 1.0 < x
    ensures k == Ceil(x)
  {
  }

  /** Great-circle distance in metres by the haversine formula. */
  function Haversine(m: MathLib, lat1: real, lon1: real, lat2: real, lon2: real): (d: real)
    ensures Sound(m) ==> d >= 0.0
    ensures Sound(m) && lat1 == lat2 && lon1 == lon2 ==> d == 0.0
  {
    var phi1 := lat1 * Pi / 180.0;
    var phi2 := lat2 * Pi / 180.0;
    var dPhi := (lat2 - lat1) * Pi / 180.0;
    var dLambda := (lon2 - lon1) * Pi / 180.0;
    var a := m.sin(dPhi / 2.0) * m.sin(dPhi / 2.0)
      + m.cos(phi1) * m.cos(phi2) * m.sin(dLambda / 2.0) * m.sin(dLambda / 2.0);
    var c := 2.0 * m.atan2(m.sqrt(a), m.sqrt(1.0 - a));
    EarthRadiusMeters * c
  }

  /** Haversine distance between two fixes. */
  function Distance(m: MathLib, p: TrackPoint, q: TrackPoint): real
  {
    Haversine(m, p.lat, p.lon, q.lat, q.lon)
  }

  /**
   * Initial bearing from the first position to the second in degrees,
   * normalised to [-180, 180] (not [0, 360)).
   */
  function Bearing(m: MathLib, lat1: real, lon1: real, lat2: real, lon2: real): (b: real)
    ensures -180.0 <= b <= 180.0
  {
    var dLon := (lon2 - lon1) * Pi / 180.0;
    var lat1Rad := lat1 * Pi / 180.0;
    var lat2Rad := lat2 * Pi / 180.0;
    var y := m.sin(dLon) * m.cos(lat2Rad);
    var x := m.cos(lat1Rad) * m.sin(lat2Rad) - m.sin(lat1Rad) * m.cos(lat2Rad) * m.cos(dLon);
    NormalizeAngle(m.atan2(y, x) * 180.0 / Pi)
  }

  /**
   * Speed over the leg from `p1` to `p2` in knots; 0 when the two fixes
   * share a timestamp.
   */
  function CalculateSpeed(m: MathLib, p1: TrackPoint, p2: TrackPoint): (s: real)
    ensures ElapsedSeconds(p1, p2) == 0.0 ==> s == 0.0
    ensures ElapsedSeconds(p1, p2) != 0.0 ==> s * ElapsedSeconds(p1, p2) == KnotsPerMps * Distance(m, p1, p2)
    ensures Sound(m) && ElapsedSeconds(p1, p2) >= 0.0 ==> s >= 0.0
  {
    var distance := Distance(m, p1, p2);
    var timeDiff := ElapsedSeconds(p1, p2);
    if timeDiff == 0.0 then 0.0 else (distance / timeDiff) * KnotsPerMps
  }
}

=== FILE: gpx_parser.dfy ===
/**
 * Track statistics (`calculateStats`): total distance over every leg, speed
 * samples kept only from legs inside a time window and a speed window, the
 * 95th-percentile sample reported as the maximum and the sample mean as the
 * average.
 */
module GpxParser {
  import opened Types
  import opened Geometry
  import opened Samples
  import opened Legs

  /** Shortest leg, in seconds, that may yield a speed sample. */
  const MinSampleSeconds: real := 5.0
  /** Longest leg, in seconds, that may yield a speed sample. */
  const MaxSampleSeconds: real := 60.0
  /** Slowest speed, in knots, kept as a sample (below is GPS drift). */
  const MinSampleKnots: real := 0.5
  /** Fastest speed, in knots, kept as a sample (above is a GPS spike). */
  const MaxSampleKnots: real := 25.0
  /** Metres in a nautical mile. */
  const MetersPerNauticalMile: real := 1852.0

  /** The summary `calculateStats` returns: nautical miles, seconds, knots, knots. */
  datatype TrackStats = TrackStats(distance: real, duration: real, maxSpeed: real, avgSpeed: real)

  /** Loop state: metres walked so far and the speed samples accepted so far. */
  datatype StatsAcc = StatsAcc(totalMeters: real, speeds: seq<real>)

  /**
   * The speed sample a leg of `distance` metres over `seconds` contributes,
   * if any.
   */
  function LegSample(distance: real, seconds: real): (r: Option<real>)
    ensures r.Some? ==> MinSampleSeconds <= seconds <= MaxSampleSeconds
    ensures r.Some? ==> MinSampleKnots <= r.value <= MaxSampleKnots
    ensures r.Some? ==> r.value * seconds == KnotsPerMps * distance
    ensures MinSampleSeconds <= seconds <= MaxSampleSeconds
            && MinSampleKnots * seconds <= KnotsPerMps * distance <= MaxSampleKnots * seconds
            ==> r.Some?
  {
    if MinSampleSeconds <= seconds <= MaxSampleSeconds then
      var speedKnots := (distance / seconds) * KnotsPerMps;
      assert speedKnots * seconds == KnotsPerMps * distance;
      assert MinSampleKnots * seconds <= KnotsPerMps * distance <= MaxSampleKnots * seconds
             ==> MinSampleKnots <= speedKnots <= MaxSampleKnots by {
        SpeedWithin(distance, seconds, MinSampleKnots, MaxSampleKnots);
      }
      if MinSampleKnots <= speedKnots <= MaxSampleKnots then Some(speedKnots) else None
    else
      None
  }

  /** A leg whose knots-scaled distance lies in [lo * seconds, hi * seconds] has a speed in [lo, hi]. */
  lemma SpeedWithin(distance: real, seconds: real, lo: real, hi: real)
    requires seconds > 0.0
    ensures lo * seconds <= KnotsPerMps * distance <= hi * seconds
            ==> lo <= (distance / seconds) * KnotsPerMps <= hi
  {
    var v := (distance / seconds) * KnotsPerMps;
    assert v * seconds == KnotsPerMps * distance;
    if lo * seconds <= KnotsPerMps * distance <= hi * seconds {
      assert lo * seconds <= v * seconds;
      assert v * seconds <= hi * seconds;
    }
  }

  /** One turn of the leg loop. */
  function StatsStep(m: MathLib, acc: StatsAcc, prev: TrackPoint, curr: TrackPoint): StatsAcc
  {
    var distance := Distance(m, prev, curr);
    var sample := LegSample(distance, ElapsedSeconds(prev, curr));
    StatsAcc(acc.totalMeters + distance,
             if sample.Some? then acc.speeds + [sample.value] else acc.speeds)
  }

  /**
   * The leg loop over the whole track. The distance is the sum of all leg
   * lengths, whatever the filters decide, and there is at most one sample per
   * leg, each within the speed window.
   */
  function StatsRun(m: MathLib, pts: seq<TrackPoint>): (acc: StatsAcc)
    ensures acc.totalMeters == Sum(LegDistances(m, pts))
    ensures |acc.speeds| <= LegCount(pts)
    ensures Within(acc.speeds, MinSampleKnots, MaxSampleKnots)
    decreases |pts|
  {
    if |pts| < 2 then StatsAcc(0.0, [])
    else
      var init := pts[..|pts| - 1];
      LegDistancesPrefix(m, pts);
      assert LegDistances(m, pts)[..|LegDistances(m, pts)| - 1] == LegDistances(m, init);
      StatsStep(m, StatsRun(m, init), pts[|pts| - 2], pts[|pts| - 1])
  }

  /** The accepted speed samples of a track. */
  function SpeedSamples(m: MathLib, pts: seq<TrackPoint>): seq<real>
  {
    StatsRun(m, pts).speeds
  }

  /**
   * `calculateStats`: `None` (the source's `null`) for an empty track,
   * otherwise the summary.
   */
  function CalculateStats(m: MathLib, pts: seq<TrackPoint>): (r: Option<TrackStats>)
    ensures r.None? <==> |pts| == 0
    ensures |pts| == 1 ==> r == Some(TrackStats(0.0, 0.0, 0.0, 0.0))
    ensures r.Some? ==> r.value.distance * MetersPerNauticalMile == Sum(LegDistances(m, pts))
    ensures r.Some? ==> r.value.duration == ElapsedSeconds(pts[0], pts[|pts| - 1])
    ensures r.Some? ==> r.value.duration == Sum(LegSeconds(pts))
    ensures r.Some? && |SpeedSamples(m, pts)| == 0 ==> r.value.maxSpeed == 0.0 && r.value.avgSpeed == 0.0
    ensures r.Some? && |SpeedSamples(m, pts)| > 0 ==>
              && r.value.maxSpeed in multiset(SpeedSamples(m, pts))
              && MinSampleKnots <= r.value.maxSpeed <= MaxSampleKnots
              && MinSampleKnots <= r.value.avgSpeed <= MaxSampleKnots
    ensures r.Some? ==> r.value.avgSpeed == Mean(SpeedSamples(m, pts))
    ensures r.Some? ==> r.value.avgSpeed == Mean(Sort(SpeedSamples(m, pts)))
    ensures r.Some? ==> r.value.maxSpeed == Percentile95(SpeedSamples(m, pts))
    ensures r.Some? && |SpeedSamples(m, pts)| > 0 ==>
              var samples := SpeedSamples(m, pts);
              exists t :: Sorted(t) && multiset(t) == multiset(samples) && |t| == |samples|
                          && t[Index95(|samples|)] == r.value.maxSpeed
  {
    if |pts| == 0 then None
    else
      var acc := StatsRun(m, pts);
      var speeds := acc.speeds;
      var maxSpeed := Percentile95(speeds);
      var avgSpeed := Mean(speeds);
      var duration := ElapsedSeconds(pts[0], pts[|pts| - 1]);
      LegSecondsTelescope(pts);
      MeanPermutation(Sort(speeds), speeds);
      assert |speeds| > 0 ==> MinSampleKnots <= avgSpeed <= MaxSampleKnots by {
        if |speeds| > 0 {
          MeanBounds(speeds, MinSampleKnots, MaxSampleKnots);
        }
      }
      assert |speeds| > 0 ==> MinSampleKnots <= maxSpeed <= MaxSampleKnots by {
        if |speeds| > 0 {
          assert maxSpeed in multiset(speeds);
          assert maxSpeed in speeds;
        }
      }
      Some(TrackStats(acc.totalMeters / MetersPerNauticalMile, duration, maxSpeed, avgSpeed))
  }

  /** Appending a point runs one more turn of the leg loop. */
  lemma StatsRunAppend(m: MathLib, pts: seq<TrackPoint>, p: TrackPoint)
    requires |pts| >= 1
    ensures StatsRun(m, pts + [p]) == StatsStep(m, StatsRun(m, pts), pts[|pts| - 1], p)
  {
    assert (pts + [p])[..|pts|] == pts;
  }

  /** Appending a point adds its leg to the distance and at most that leg's sample. */
  lemma StatsAppend(m: MathLib, pts: seq<TrackPoint>, p: TrackPoint)
    requires |pts| >= 1
    ensures var last := pts[|pts| - 1];
            var sample := LegSample(Distance(m, last, p), ElapsedSeconds(last, p));
            && CalculateStats(m, pts + [p]).value.distance
                 == CalculateStats(m, pts).value.distance + Distance(m, last, p) / MetersPerNauticalMile
            && SpeedSamples(m, pts + [p])
                 == if sample.Some? then SpeedSamples(m, pts) + [sample.value] else SpeedSamples(m, pts)
  {
    StatsRunAppend(m, pts, p);
    var before := StatsRun(m, pts);
    var after := StatsRun(m, pts + [p]);
    assert CalculateStats(m, pts).value.distance == before.totalMeters / MetersPerNauticalMile;
    assert CalculateStats(m, pts + [p]).value.distance == after.totalMeters / MetersPerNauticalMile;
  }

  /** With a sound haversine the distance is never negative and never shrinks as points are appended. */
  lemma DistanceMonotone(m: MathLib, pts: seq<TrackPoint>, p: TrackPoint)
    requires Sound(m) && |pts| >= 1
    ensures CalculateStats(m, pts).value.distance >= 0.0
    ensures CalculateStats(m, pts + [p]).value.distance >= CalculateStats(m, pts).value.distance
  {
    StatsAppend(m, pts, p);
    DistanceNonNegative(m, pts);
  }

  /** With a sound haversine every track has a non-negative distance. */
  lemma DistanceNonNegative(m: MathLib, pts: seq<TrackPoint>)
    requires Sound(m) && |pts| >= 1
    ensures CalculateStats(m, pts).value.distance >= 0.0
  {
    var legs := LegDistances(m, pts);
    assert forall i :: 0 <= i < |legs| ==> legs[i] >= 0.0;
    SumNonNegative(legs);
  }

  /**
   * A two-point track whose fixes are 600 s apart: the leg adds its length
   * but no speed sample, so both speeds are 0 and the duration is 600 s.
   * A leg of 1852 m gives one nautical mile.
   */
  lemma TenMinuteLegHasNoSample(m: MathLib, a: TrackPoint, b: TrackPoint)
    requires b.time == a.time + 600000
    ensures var r := CalculateStats(m, [a, b]).value;
            && r.maxSpeed == 0.0 && r.avgSpeed == 0.0
            && r.duration == 600.0
            && r.distance == Distance(m, a, b) / MetersPerNauticalMile
            && (Distance(m, a, b) == 1852.0 ==> r.distance == 1.0)
  {
    StatsAppend(m, [a], b);
    assert [a] + [b] == [a, b];
  }
}

=== FILE: legs.dfy ===
/**
 * A track seen as its legs: the consecutive pairs of fixes that both
 * analyses walk from the second point to the last.
 */
module Legs {
  import opened Types
  import opened Geometry
  import opened Samples

  /** Number of legs of a track: one fewer than its points, none for an empty track. */
  function LegCount(pts: seq<TrackPoint>): nat
  {
    if |pts| == 0 then 0 else |pts| - 1
  }

  /** The elapsed seconds of each leg, in track order. */
  function LegSeconds(pts: seq<TrackPoint>): (r: seq<real>)
    ensures |r| == LegCount(pts)
  {
    seq(LegCount(pts), i requires 0 <= i < LegCount(pts) => ElapsedSeconds(pts[i], pts[i + 1]))
  }

  /** The haversine length of each leg in metres, in track order. */
  function LegDistances(m: MathLib, pts: seq<TrackPoint>): (r: seq<real>)
    ensures |r| == LegCount(pts)
  {
    seq(LegCount(pts), i requires 0 <= i < LegCount(pts) => Distance(m, pts[i], pts[i + 1]))
  }

  /** Dropping the last point drops the last leg and keeps the others. */
  lemma LegSecondsPrefix(pts: seq<TrackPoint>)
    requires |pts| >= 2
    ensures LegSeconds(pts) == LegSeconds(pts[..|pts| - 1]) + [ElapsedSeconds(pts[|pts| - 2], pts[|pts| - 1])]
  {
  }

  /** Dropping the last point drops the last leg and keeps the others. */
  lemma LegDistancesPrefix(m: MathLib, pts: seq<TrackPoint>)
    requires |pts| >= 2
    ensures LegDistances(m, pts) == LegDistances(m, pts[..|pts| - 1]) + [Distance(m, pts[|pts| - 2], pts[|pts| - 1])]
  {
  }

  /** The leg times of a track add up to its last timestamp minus its first. */
  lemma {:induction false} LegSecondsTelescope(pts: seq<TrackPoint>)
    requires |pts| >= 1
    ensures Sum(LegSeconds(pts)) == ElapsedSeconds(pts[0], pts[|pts| - 1])
    decreases |pts|
  {
    if |pts| >= 2 {
      LegSecondsPrefix(pts);
      var init := pts[..|pts| - 1];
      LegSecondsTelescope(init);
      assert LegSeconds(pts)[..|LegSeconds(pts)| - 1] == LegSeconds(init);
    }
  }

  /** On a chronological track every leg takes non-negative time. */
  lemma ChronologicalLegs(pts: seq<TrackPoint>)
    requires Chronological(pts)
    ensures forall i :: 0 <= i < |LegSeconds(pts)| ==> LegSeconds(pts)[i] >= 0.0
  {
  }
}

=== FILE: samples.dfy ===
/**
 * Aggregates over a sample of speeds: the running sum `reduce` computes,
 * the arithmetic mean, ascending sort and the 95th-percentile pick.
 */
module Samples {

  /** Left-to-right sum, as `reduce((a, b) => a + b, 0)`. */
  function Sum(s: seq<real>): real
    decreases |s|
  {
    if |s| == 0 then 0.0 else Sum(s[..|s| - 1]) + s[|s| - 1]
  }

  /** Appending a value adds it to the sum. */
  lemma SumSnoc(s: seq<real>, x: real)
    ensures Sum(s + [x]) == Sum(s) + x
  {
    assert (s + [x])[..|s|] == s;
  }

  /** The sum of a concatenation is the sum of the parts. */
  lemma {:induction false} SumConcat(a: seq<real>, b: seq<real>)
    ensures Sum(a + b) == Sum(a) + Sum(b)
    decreases |b|
  {
    if |b| == 0 {
      assert a + b == a;
    } else {
      var init := b[..|b| - 1];
      assert (a + b)[..|a + b| - 1] == a + init;
      SumConcat(a, init);
    }
  }

  /** Rearranging a sample does not change its sum. */
  lemma {:induction false} SumPermutation(a: seq<real>, b: seq<real>)
    requires multiset(a) == multiset(b)
    ensures Sum(a) == Sum(b)
    decreases |a|
  {
    if |a| > 0 {
      var init := a[..|a| - 1];
      var x := a[|a| - 1];
      assert a == init + [x];
      assert x in multiset(b);
      var j :| 0 <= j < |b| && b[j] == x;
      var rest := b[..j] + b[j + 1..];
      assert b == b[..j] + [x] + b[j + 1..];
      assert multiset(init) == multiset(a) - multiset{x};
      assert multiset(rest) == multiset(b) - multiset{x};
      SumPermutation(init, rest);
      SumConcat(b[..j] + [x], b[j + 1..]);
      SumConcat(b[..j], [x]);
      SumConcat(b[..j], b[j + 1..]);
      SumSnoc(init, x);
      assert Sum([x]) == x by {
        assert [x][..0] == [];
      }
    } else {
      assert |b| == |multiset(b)| == 0;
    }
  }

  /** The arithmetic mean of a sample, 0 for an empty sample. */
  function Mean(s: seq<real>): real
  {
    if |s| > 0 then Sum(s) / |s| as real else 0.0
  }

  /** The mean times the sample size gives back the sum. */
  lemma MeanTimesCount(s: seq<real>)
    ensures Mean(s) * |s| as real == Sum(s)
  {
  }

  /** Every element of `s` lies in [lo, hi]. */
  predicate Within(s: seq<real>, lo: real, hi: real)
  {
    forall i :: 0 <= i < |s| ==> lo <= s[i] <= hi
  }

  /** Rearranging a sample does not change its mean. */
  lemma MeanPermutation(a: seq<real>, b: seq<real>)
    requires multiset(a) == multiset(b)
    ensures Mean(a) == Mean(b)
  {
    assert |a| == |multiset(a)| == |multiset(b)| == |b|;
    SumPermutation(a, b);
  }

  /** A sum of `n` values from [lo, hi] lies in [n * lo, n * hi]. */
  lemma {:induction false} SumBounds(s: seq<real>, lo: real, hi: real)
    requires Within(s, lo, hi)
    ensures |s| as real * lo <= Sum(s) <= |s| as real * hi
    decreases |s|
  {
    if |s| > 0 {
      var init := s[..|s| - 1];
      assert Within(init, lo, hi);
      SumBounds(init, lo, hi);
      var n := |init| as real;
      assert Sum(s) == Sum(init) + s[|s| - 1];
      assert |s| as real == n + 1.0;
      assert n * lo + lo == (n + 1.0) * lo;
      assert n * hi + hi == (n + 1.0) * hi;
      assert n * lo + lo <= Sum(s) <= n * hi + hi;
    }
  }

  /** A sum of non-negative values is non-negative. */
  lemma {:induction false} SumNonNegative(s: seq<real>)
    requires forall i :: 0 <= i < |s| ==> s[i] >= 0.0
    ensures Sum(s) >= 0.0
    decreases |s|
  {
    if |s| > 0 {
      SumNonNegative(s[..|s| - 1]);
    }
  }

  /** The mean of a non-empty sample drawn from [lo, hi] lies in [lo, hi]. */
  lemma MeanBounds(s: seq<real>, lo: real, hi: real)
    requires |s| > 0 && Within(s, lo, hi)
    ensures lo <= Mean(s) <= hi
  {
    SumBounds(s, lo, hi);
    var n := |s| as real;
    assert Sum(s) / n >= lo by {
      assert Sum(s) >= n * lo;
    }
    assert Sum(s) / n <= hi by {
      assert Sum(s) <= n * hi;
    }
  }

  /** The mean of non-negative values is non-negative. */
  lemma MeanNonNegative(s: seq<real>)
    requires forall i :: 0 <= i < |s| ==> s[i] >= 0.0
    ensures Mean(s) >= 0.0
  {
    SumNonNegative(s);
  }

  /** Sums are monotone in each element. */
  lemma {:induction false} SumMonotone(a: seq<real>, b: seq<real>)
    requires |a| == |b|
    requires forall i :: 0 <= i < |a| ==> a[i] <= b[i]
    ensures Sum(a) <= Sum(b)
    decreases |a|
  {
    if |a| > 0 {
      SumMonotone(a[..|a| - 1], b[..|b| - 1]);
    }
  }

  /** Means of equally long samples are monotone in each element. */
  lemma MeanMonotone(a: seq<real>, b: seq<real>)
    requires |a| == |b|
    requires forall i :: 0 <= i < |a| ==> a[i] <= b[i]
    ensures Mean(a) <= Mean(b)
  {
    SumMonotone(a, b);
    if |a| > 0 {
      var n := |a| as real;
      assert Sum(a) / n <= Sum(b) / n;
    }
  }

  /** Ascending order. */
  predicate Sorted(s: seq<real>)
  {
    forall i, j :: 0 <= i < j < |s| ==> s[i] <= s[j]
  }

  /** Prefixing a lower bound of an ascending sequence keeps it ascending. */
  lemma SortedCons(h: real, t: seq<real>)
    requires Sorted(t)
    requires forall j :: 0 <= j < |t| ==> h <= t[j]
    ensures Sorted([h] + t)
  {
  }

  /** Inserts `x` into an ascending sequence, keeping it ascending. */
  function Insert(x: real, s: seq<real>): (r: seq<real>)
    requires Sorted(s)
    ensures Sorted(r)
    ensures multiset(r) == multiset(s) + multiset{x}
    decreases |s|
  {
    if |s| == 0 then [x]
    else if x <= s[0] then
      SortedCons(x, s);
      [x] + s
    else
      var rest := Insert(x, s[1..]);
      assert s == [s[0]] + s[1..];
      forall j | 0 <= j < |rest|
        ensures s[0] <= rest[j]
      {
        assert rest[j] in multiset(rest);
        assert rest[j] in multiset(s[1..]) || rest[j] == x;
      }
      SortedCons(s[0], rest);
      [s[0]] + rest
  }

  /** Ascending sort (the in-place `Array.sort` with `(a, b) => a - b`). */
  function Sort(s: seq<real>): (r: seq<real>)
    ensures Sorted(r)
    ensures multiset(r) == multiset(s)
    decreases |s|
  {
    if |s| == 0 then []
    else
      assert s == [s[0]] + s[1..];
      Insert(s[0], Sort(s[1..]))
  }

  /**
   * Any two ascending arrangements of the same multiset are equal, so the
   * percentile below does not depend on which sorting algorithm is used.
   */
  lemma {:induction false} SortedPermutationUnique(a: seq<real>, b: seq<real>)
    requires Sorted(a) && Sorted(b)
    requires multiset(a) == multiset(b)
    ensures a == b
    decreases |a|
  {
    if |a| > 0 {
      assert |b| == |multiset(b)| == |multiset(a)| == |a|;
      assert a[0] in multiset(b);
      assert b[0] in multiset(a);
      assert a[0] == b[0];
      assert a == [a[0]] + a[1..];
      assert b == [b[0]] + b[1..];
      assert multiset(a) == multiset{a[0]} + multiset(a[1..]);
      assert multiset(b) == multiset{b[0]} + multiset(b[1..]);
      assert multiset(a[1..]) == multiset(a) - multiset{a[0]};
      assert multiset(b[1..]) == multiset(b) - multiset{b[0]};
      SortedPermutationUnique(a[1..], b[1..]);
    }
  }

  /** `Math.floor(n * 0.95)`, the index of the 95th percentile. */
  function Index95(n: nat): (i: nat)
    requires n > 0
    ensures i as real <= 0.95 * n as real < i as real + 1.0
    ensures i < n
    ensures n <= 20 ==> i == n - 1
  {
    (n as real * 0.95).Floor
  }

  /**
   * The 95th-percentile element of the sample, 0 for an empty one: the
   * element at rank floor(0.95 * n) of an ascending arrangement.
   */
  function Percentile95(s: seq<real>): (p: real)
    ensures |s| == 0 ==> p == 0.0
    ensures |s| > 0 ==> p in multiset(s)
    ensures |s| > 0 ==>
              exists t :: Sorted(t) && multiset(t) == multiset(s) && |t| == |s| && t[Index95(|s|)] == p
  {
    if |s| == 0 then 0.0
    else
      var sorted := Sort(s);
      assert |sorted| == |multiset(sorted)| == |multiset(s)| == |s|;
      assert sorted[Index95(|s|)] in multiset(sorted);
      sorted[Index95(|s|)]
  }

  /** Every ascending arrangement of the sample has the percentile at rank floor(0.95 * n). */
  lemma PercentileOfAnyArrangement(s: seq<real>, t: seq<real>)
    requires |s| > 0
    requires Sorted(t) && multiset(t) == multiset(s)
    ensures |t| == |s|
    ensures t[Index95(|s|)] == Percentile95(s)
  {
    assert |t| == |multiset(t)| == |multiset(s)| == |s|;
    SortedPermutationUnique(t, Sort(s));
  }

  /** With at most 20 samples the percentile is the true maximum. */
  lemma PercentileIsMaxOfSmallSample(s: seq<real>)
    requires 0 < |s| <= 20
    ensures forall i :: 0 <= i < |s| ==> s[i] <= Percentile95(s)
  {
    var sorted := Sort(s);
    forall i | 0 <= i < |s|
      ensures s[i] <= Percentile95(s)
    {
      assert s[i] in multiset(sorted);
    }
  }

  /**
   * The percentile can lie below the mean: twenty samples of 1 knot and one
   * of 25 knots give a percentile of 1 and a mean of 45/21.
   */
  lemma PercentileCanBeBelowMean()
    ensures var s := seq(20, i => 1.0) + [25.0];
            Percentile95(s) == 1.0 && Mean(s) == 45.0 / 21.0
  {
    var s := seq(20, i => 1.0) + [25.0];
    SortedPermutationUnique(Sort(s), s);
    assert Index95(21) == 19;
    assert Sum(seq(20, i => 1.0)) == 20.0 by {
      SumBounds(seq(20, i => 1.0), 1.0, 1.0);
    }
    assert s[..20] == seq(20, i => 1.0);
  }
}

=== FILE: types.dfy ===
/**
 * The records the track analytics consume: a GPS fix of a track and the
 * weather observation attached to a session.
 */
module Types {

  /** An optional value; `None` stands for an absent field, `null` or `undefined`. */
  datatype Option<+T> = None | Some(value: T)

  /**
   * One GPS fix. Latitude and longitude are in degrees; `time` is the
   * instant of the fix in whole milliseconds since the epoch.
   */
  datatype TrackPoint = TrackPoint(
    lat: real,
    lon: real,
    time: int,
    speed: Option<real>,
    elevation: Option<real>
  )

  /**
   * A weather observation. `windSpeed` is in metres per second and
   * `windDirection` is the bearing in degrees the wind blows from.
   */
  datatype WeatherData = WeatherData(
    windSpeed: real,
    windDirection: real,
    temperature: real,
    humidity: real,
    pressure: real,
    conditions: string
  )

  /** Elapsed time from `a` to `b` in seconds (negative when `b` is earlier). */
  function ElapsedSeconds(a: TrackPoint, b: TrackPoint): real
  {
    (b.time - a.time) as real / 1000.0
  }

  /** Timestamps never decrease along the track. */
  predicate Chronological(pts: seq<TrackPoint>)
  {
    forall i :: 0 <= i < |pts| - 1 ==> pts[i].time <= pts[i + 1].time
  }
}

=== FILE: weather.dfy ===
/**
 * Display helpers for weather: the 16-point compass label of a wind
 * direction and the knots / metres-per-second conversions.
 */
module Weather {
  import opened Types

  /** The sixteen compass points, clockwise from north, 22.5 degrees apart. */
  const Directions: seq<string> :=
    ["N", "NNE", "NE", "ENE", "E", "ESE", "SE", "SSE", "S", "SSW", "SW", "WSW", "W", "WNW", "NW", "NNW"]

  /** Metres per second in one knot. */
  const MpsPerKnot: real := 0.514444

  /** `Math.round`: the nearest integer, a half rounded towards positive infinity. */
  function Round(x: real): (k: int)
    ensures x - 0.5 < k as real <= x + 0.5
  {
    (x + 0.5).Floor
  }

  /**
   * JavaScript's `%` on integers: the remainder takes the sign of the
   * dividend, so it agrees with the Euclidean remainder only for a
   * non-negative dividend.
   */
  function JsRem(a: int, b: int): (r: int)
    requires b > 0
    ensures a >= 0 ==> r == a % b
    ensures a <= 0 ==> -b < r <= 0
  {
    if a >= 0 then a % b else -((-a) % b)
  }

  /**
   * `formatWindDirection`: the label of the compass point nearest to
   * `degrees`. An index the remainder leaves negative reads past the start of
   * the array, which yields `undefined`, modelled as `None`.
   */
  function FormatWindDirection(degrees: real): (r: Option<string>)
    ensures degrees >= -11.25 ==> r.Some?
    ensures r.Some? ==> r.value in Directions
  {
    var index := JsRem(Round(degrees / 22.5), 16);
    if 0 <= index < |Directions| then Some(Directions[index]) else None
  }

  /**
   * Every direction in the 22.5-degree sector centred on compass point `k`
   * (the lower edge included) gets that point's label; sectors past north
   * wrap around.
   */
  lemma SectorLabel(degrees: real, k: nat)
    requires 22.5 * k as real - 11.25 <= degrees < 22.5 * k as real + 11.25
    ensures FormatWindDirection(degrees) == Some(Directions[k % 16])
  {
    var x := degrees / 22.5;
    assert k as real - 0.5 <= x < k as real + 0.5;
    assert Round(x) == k;
  }

  /** The cardinal points, the wrap at 360 and the round-up at a sector edge. */
  lemma CompassPoints()
    ensures FormatWindDirection(0.0) == Some("N")
    ensures FormatWindDirection(90.0) == Some("E")
    ensures FormatWindDirection(180.0) == Some("S")
    ensures FormatWindDirection(270.0) == Some("W")
    ensures FormatWindDirection(360.0) == Some("N")
    ensures FormatWindDirection(11.25) == Some("NNE")
    ensures FormatWindDirection(11.0) == Some("N")
  {
    SectorLabel(0.0, 0);
    SectorLabel(90.0, 4);
    SectorLabel(180.0, 8);
    SectorLabel(270.0, 12);
    SectorLabel(360.0, 16);
    SectorLabel(11.25, 1);
    SectorLabel(11.0, 0);
  }

  /** Negative directions: -30 degrees reads before the array, -360 wraps to north. */
  lemma NegativeDirections()
    ensures FormatWindDirection(-30.0) == None
    ensures FormatWindDirection(-360.0) == Some("N")
  {
    assert Round(-30.0 / 22.5) == -1;
    assert Round(-360.0 / 22.5) == -16;
  }

  /**
   * A direction reads `undefined` exactly when its rounded sector index is
   * negative and not a multiple of 16: only then does the sign-keeping
   * remainder leave a negative index.
   */
  lemma UndefinedDirections(degrees: real)
    ensures FormatWindDirection(degrees) == None
            <==> Round(degrees / 22.5) < 0 && Round(degrees / 22.5) % 16 != 0
  {
    var a := Round(degrees / 22.5);
    if a < 0 {
      assert (-a) % 16 == 0 <==> a % 16 == 0;
    }
  }

  /** `knotsToMps`: positive speeds stay positive. */
  function KnotsToMps(knots: real): (mps: real)
    ensures knots > 0.0 <==> mps > 0.0
  {
    knots * MpsPerKnot
  }

  /** `mpsToKnots`, the inverse of `KnotsToMps`. */
  function MpsToKnots(mps: real): (knots: real)
    ensures KnotsToMps(knots) == mps
  {
    mps / MpsPerKnot
  }

  /** Converting knots to metres per second and back gives the knots again. */
  lemma KnotsRoundTrip(knots: real)
    ensures MpsToKnots(KnotsToMps(knots)) == knots
  {
  }

  /** Both conversions fix 0 and are strictly increasing. */
  lemma ConversionsIncreasing(a: real, b: real)
    requires a < b
    ensures KnotsToMps(0.0) == 0.0 && MpsToKnots(0.0) == 0.0
    ensures KnotsToMps(a) < KnotsToMps(b)
    ensures MpsToKnots(a) < MpsToKnots(b)
  {
  }
}
